=== FILE: README.md ===
# Desktop installer for an agent gateway: first-run initialisation and chat

This project models the core of a desktop application that bundles an agent
binary (`zeroclaw`). On first start it installs the binary, runs its
`onboard` sub-command to write a configuration, and then offers a chat with
the local gateway. The model covers five parts of the program:

- **Paths** (`paths.dfy`, after `src-tauri/src/utils/paths.rs`): the
  `~/.openclaw` root directory, its `workspace` directory and its
  `openclaw.json` file. All three are derived from an optional home directory.
- **Install** (`install.dfy`, after `src-tauri/src/utils/fs.rs`): the
  idempotent `install_binary`. It creates the parent directories, copies the
  file and sets mode 0o755. It runs over an abstract file system
  (`filesystem.dfy`): a map from component paths to directories and files.
  That module models `create_dir_all`, `copy` and `set_permissions` as far as
  the installer depends on them.
- **Init** (`init.dfy`, after `src-tauri/src/commands/init.rs`):
  - `check_initialized`;
  - `run_zeroclaw_onboard`, which skips the run when `config.toml` exists,
    fails on a spawn failure or a non-zero exit, and then restricts the
    configuration to mode 0o600;
  - `initialize_from_resource_dir`.

  The external `onboard` program is a parameter: an opaque function from the
  binary's path and the file system to what the run did.
- **Initialization** (`initialization.dfy`, after
  `src/composables/useInitialization.ts`): the start-up state machine. It
  goes Checking → Initializing → StartingGateway → Success or Error. It is
  driven by the settled outcomes of the three back-end commands, and it
  records the states it passes through and the commands it invokes.
- **Chat** (`chat.dfy` and `text.dfy`, after `src/composables/useChat.ts`):
  - `sendMessage`, with JavaScript's `String.prototype.trim`;
  - the network and HTTP error texts;
  - the outcomes of a webhook call;
  - `abortResponse` and `clearMessages`.

  A send yields the state while the request is in flight and the state after
  it settles.

`results.dfy` holds the `Option` and `Result` types shared by all modules.

## Model

| member | source | states |
|---|---|---|
| Paths.OpenclawDir | src-tauri/src/utils/paths.rs:4-7 | fails exactly when the home directory is unknown, with "Cannot determine home directory"; otherwise the home directory followed by one component, `.openclaw` |
| Paths.WorkspaceDir | src-tauri/src/utils/paths.rs:10-12 | propagates the root's error; otherwise the root directory followed by `workspace` |
| Paths.ConfigFilePath | src-tauri/src/utils/paths.rs:15-17 | propagates the root's error; otherwise the root directory followed by `openclaw.json` |
| Paths.LocationsUnderHome | src-tauri/src/utils/paths.rs:23-43 | for a known home directory, all three locations lie strictly under it and are pairwise distinct |
| FileSystem.CreateDirAll | src-tauri/src/utils/fs.rs:14-17 | succeeds exactly when no ancestor of the path is a file (on a well-formed tree); on success every ancestor is a directory, existing entries are untouched and only directories are added |
| FileSystem.Copy | src-tauri/src/utils/fs.rs:19-26 | succeeds exactly when the source is a regular file and the target's parent is a directory that holds no directory under that name; the target then holds the source's node |
| FileSystem.SetMode | src-tauri/src/utils/fs.rs:29-36 | succeeds exactly when the path exists; a file gets the new mode and keeps its content, and nothing else changes |
| Install.InstallBinary | src-tauri/src/utils/fs.rs:9-39 | an existing target gives `Ok(false)` with no change; otherwise it gives `Ok(true)` exactly when the source is a file and the parent chain can be created, and the target then holds the source's bytes with mode 0o755; a failed install leaves no target; existing entries other than the target are never changed and only the target's ancestors are added |
| Install.InstallOnWellFormed | src-tauri/src/utils/fs.rs:14-26 | on a well-formed tree a fresh install succeeds only from a file into a creatable parent chain, and leaves a well-formed tree with every ancestor of the target a directory |
| Install.InstallIdempotent | src-tauri/src/utils/fs.rs:66-83 | after a successful install, a second install reports `false`, changes nothing and keeps the first content at mode 0o755, even if the source changed in between |
| Init.CheckInitialized | src-tauri/src/commands/init.rs:13-16 | fails exactly when the home directory is unknown; otherwise true exactly when `~/.openclaw/openclaw.json` exists |
| Init.RunOnboard | src-tauri/src/commands/init.rs:20-65 | with `config.toml` present: `Ok` with no change; otherwise a spawn failure is an error with no change whose text is "Failed to run zeroclaw onboard: " followed by the reason, and a run that did not exit with 0 is an error with the program's effects kept whose text is "zeroclaw onboard failed (exit N): " (N the exit code, −1 when there is none) followed by the program's error output; success implies exit 0 and makes `config.toml` mode 0o600 with every other entry as the program left it |
| Init.InitializeFromResourceDir | src-tauri/src/commands/init.rs:98-115 | success carries the completion message; a failed install of the bundled binary is returned as that error, with the tree the install left, before `onboard` could run; with a configuration present a bundled binary is still installed and the run then succeeds on the install's tree; with no binary anywhere, or with binary and configuration present, it succeeds without a write; with a configuration present nothing existing changes; with an installed binary and no configuration it succeeds exactly when `onboard` exits with 0 and returns the tree and, on failure, the error text of that `onboard` step; on a first run the bundled binary is installed at mode 0o755, `onboard` runs with it, and the returned tree and, on failure, the error text are those of the `onboard` step on the installed tree |
| Init.FirstRunInstallsAndConfigures | src-tauri/src/commands/init.rs:157-188 | a first run whose `onboard` exits with 0, writes `config.toml` and leaves the binary alone succeeds with the bundled binary's bytes installed at mode 0o755 and `config.toml` at mode 0o600 |
| Init.FirstRunKeepsOnboardEntries | src-tauri/src/commands/init.rs:105-114 | a first run whose `onboard` exits with 0 succeeds and leaves exactly the entries the program left |
| Init.OnboardNotRunWhenConfigured | src-tauri/src/commands/init.rs:19-25 | when `config.toml` exists, or there is no binary at all, the outcome does not depend on what `onboard` would do |
| Init.SecondInitializeKeepsEdits | src-tauri/src/commands/init.rs:190-210 | after an initialisation that configured the agent, any edit by the user, including to `config.toml` or the binary, survives a second initialisation, which succeeds without a write |
| Initialization.InitialState | src/composables/useInitialization.ts:14-19 | idle, progress 0, no error |
| Initialization.CheckAndInitialize | src/composables/useInitialization.ts:21-86 | starts in Checking at 10%; each step is an allowed transition and ends in Success or Error; a state carries an error exactly when it is Error; progress never decreases; an initialised agent goes straight to Success/100 ("就绪") after one command; otherwise the second state is Initializing at 30%; a rejected initialisation then stops in Error at 30% with the rejection text, without starting the gateway; a resolved one passes StartingGateway at 80% and ends in Success/100 ("初始化完成") after all three commands |
| Initialization.Retry | src/composables/useInitialization.ts:88-90 | a retry is a fresh run of `checkAndInitialize`, whatever state it starts from |
| Initialization.CheckFailureIsFalse | src/composables/useInitialization.ts:29-34 | a failed initialised check behaves exactly like a check that answered false |
| Initialization.GatewayNeverBlocks | src/composables/useInitialization.ts:68-85 | the gateway's outcome does not affect the run |
| Initialization.RetryAfterError | src/composables/useInitialization.ts:88-90 | retrying after an Error reaches Success when initialisation now succeeds |
| Initialization.Settle | src-tauri/src/commands/init.rs:13-16 | a back-end `Result` resolves on `Ok` with its value and rejects on `Err` with its message |
| Initialization.UnknownHomeInitializes | src/composables/useInitialization.ts:29-54 | when the home directory is unknown, the initialised check's error (as written or as corrected) makes the front end run initialisation |
| Text.TrimEmptyIff | src/composables/useChat.ts:54-55 | the trimmed message is empty exactly when every character is JavaScript whitespace |
| Text.DecimalRoundTrip | src/composables/useChat.ts:25-34 | the decimal rendering of a status code parses back to that code |
| Chat.InitialChat | src/composables/useChat.ts:38-40 | no messages, not loading, no error |
| Chat.FormatNetworkError | src/composables/useChat.ts:17-20 | the text is the fixed explanation that the service is unreachable followed by exactly the raw error |
| Chat.NetworkErrorKeepsRaw | src/composables/useChat.ts:17-20 | distinct raw errors give distinct texts |
| Chat.FormatHttpError | src/composables/useChat.ts:22-35 | a non-empty server message is used verbatim; otherwise the text is the status's label followed directly by the status in parentheses, with nothing in between |
| Chat.HttpErrorNamesStatus | src/composables/useChat.ts:22-35 | without a server message, the status can be read back from the text |
| Chat.TrimmedInput | src/composables/useChat.ts:53-55 | no request exactly when the input is all whitespace; otherwise the request is the trimmed input, which is non-empty with no whitespace at either end |
| Chat.TrimmedInputStable | src/composables/useChat.ts:53-55 | sending a request's text again yields the same request |
| Chat.Respond | src/composables/useChat.ts:81-132 | an abort before the response adds no message and no error; any other failure adds an assistant message in error state carrying the error text, which is also the chat's error; a parsed body adds a done message holding `reply`, `response`, `content` or the stringified body, in that order of preference |
| Chat.SendMessage | src/composables/useChat.ts:53-135 | a blank input changes nothing and sends nothing; otherwise the trimmed text is sent, the user message is appended as done while loading with the error cleared, and the settled state keeps those messages, adds the reply (none on an abort before the response), stops loading and reports the reply's error |
| Chat.AbortResponse | src/composables/useChat.ts:137-149 | same messages in the same order; every streaming message becomes done, every other status and every other field is kept; loading stops and the error is kept |
| Chat.AbortIdempotent | src/composables/useChat.ts:137-149 | aborting twice is aborting once |
| Chat.SendLeavesNothingToAbort | src/composables/useChat.ts:110-134 | a settled send leaves no streaming message, so a later abort changes nothing |
| Chat.SendKeepsUserMessagesTrimmed | src/composables/useChat.ts:53-66 | if every user message is trimmed and non-empty before a send, that holds after it |
| Chat.AbortAndClearKeepUserMessagesTrimmed | src/composables/useChat.ts:137-154 | abort and clear keep every user message trimmed and non-empty |
| Chat.ClearMessages | src/composables/useChat.ts:151-154 | no messages and no error; loading is kept |

## Left out

- `initialize_zeroclaw` (the Tauri command) is not part of this model. It
  resolves its paths through `paths::zeroclaw_dir` and
  `paths::zeroclaw_bin_path`, which the paths module does not define, and it
  takes the resource directory from the application handle. Its testable
  twin, `initialize_from_resource_dir`, is modelled instead. It receives the
  agent directory as a parameter.
- The gateway commands, the Tauri set-up and the Vue views are not part of
  this model.
- `check_initialized`: its doc comment names `~/.zeroclaw/config.toml`, but the
  code checks `~/.openclaw/openclaw.json`. `Init.CheckInitialized` follows the
  code; see "## Findings".
- `paths::zeroclaw_dir` is not part of this model; `Init.ZEROCLAW_NAME` takes
  it to be `~/.zeroclaw`, as the doc comments of `init.rs` say.
- The home directory is a parameter. The operating system's lookup is not
  modelled.
- The `onboard` program is opaque. Its arguments (provider, model, memory
  back end) and its standard output and logging are not modelled. An exit
  without a code (ended by a signal) is modelled and reported as exit −1.
  Lossy UTF-8 decoding of its standard error is not modelled.
- The file-system error texts are abstract constants, not the operating
  system's messages.
- Directory permissions, symbolic links, file ownership and non-Unix builds
  are not modelled. Mode bits are stored exactly as set.
- `Paths.Display` renders paths in messages. It assumes `/` as the separator
  and puts `/` in front of every path, so a relative path is shown differently
  from `Path::display`. Only message texts are affected.
- `Install.InstallBinary`: existence checks and the copy are modelled as
  atomic. Races with other processes are not modelled.
- Chat:
  - `fetch`, the HTTP request and JSON parsing are given as an outcome
    parameter. Only string-valued `reply`, `response` and `content` fields
    are modelled; any other body is its stringified form.
  - A network error's text is given as a string. The `instanceof Error`
    distinction is not modelled.
  - `Chat.FormatHttpError`: the server's `error` field is modelled as an
    optional string. The source copies any truthy `body.error`, string or
    not, into the chat's error and the message content; a non-string value
    cannot be expressed here.
  - JavaScript strings are sequences of UTF-16 code units, while a Dafny
    `string` holds Unicode scalar values. Lone surrogates cannot be
    represented, and lengths such as the one in `Chat.FormatNetworkError`'s
    contract count characters, not code units. Trimming is unaffected, as
    every JavaScript whitespace character is a single code unit.
  - Message ids and timestamps (`generateId`, `Date.now()`) are parameters.
    So is the `AbortController`, whose only visible effect is an abort
    outcome.
  - Interleavings of an abort with a send still in flight are not modelled.
    A send is its in-flight state followed by its settled state.
  - The streaming placeholder that a successful response appends is folded
    into the settled reply. Its in-between state is not represented.
- `Initialization.CheckAndInitialize`: the console logging of failures is
  not modelled. The front end's reactive state is modelled as the sequence of
  states it takes.

## Findings

| source | as written | input that shows it | evidently intended | confidence | as-written member | corrected member |
|---|---|---|---|---|---|---|
| src-tauri/src/commands/init.rs:10-16 | `check_initialized` reports whether `~/.openclaw/openclaw.json` exists, a file the initialisation never writes (it writes `~/.zeroclaw/config.toml`, init.rs:21-25) | a first run whose `onboard` exits with 0, writes `config.toml` and does not write `~/.openclaw/openclaw.json`, as the mock binary of init.rs:124-155 (which writes `config.toml` and workspace files only under the agent directory) does: initialisation succeeds, yet the check answers false, so the front end initialises and starts the gateway again on every start | report whether `~/.zeroclaw/config.toml` exists, as the doc comment says and as initialisation guards its `onboard` run | medium; not executed; depends on `onboard` not also writing `openclaw.json`, and on `paths.rs` being the version `init.rs` is built with, which is uncertain because that `paths.rs` lacks the `zeroclaw_dir` and `zeroclaw_bin_path` that init.rs:74 and init.rs:84 call | Init.FirstRunNotReportedAsWritten | Init.FirstRunReported, Init.ReportedMeansNothingToDo |

=== FILE: chat.dfy ===
/** The chat message list of the web side (`useChat.ts`). The HTTP exchange
    with the gateway is replaced by its outcome, and message ids and timestamps
    by values supplied from outside. */
module Chat {
  import opened Results
  import opened Text

  datatype Role = User | Assistant

  datatype MessageStatus = Sending | Streaming | Done | Error

  datatype ChatMessage = ChatMessage(id: string, role: Role, content: string, timestamp: int, status: MessageStatus)

  datatype ChatState = ChatState(messages: seq<ChatMessage>, isLoading: bool, error: Option<string>)

  /** A fresh message id and the clock reading at which the message is made. */
  datatype Stamp = Stamp(id: string, timestamp: int)

  /** How reading a successful response's JSON body ends: it fails with a
      message, is aborted, or yields the body's `reply`, `response` and
      `content` fields (`None` for `null` or missing) and its `JSON.stringify`. */
  datatype BodyOutcome =
    | ParseFailed(message: string)
    | AbortedDuringBody
    | Parsed(reply: Option<string>, response: Option<string>, content: Option<string>, stringified: string)

  /** How the `POST /webhook` request ends: aborted before a response, a
      network failure (with the error's message), a non-2xx status (with the
      body's `error` field when the body parsed and had one), or a 2xx response. */
  datatype FetchOutcome =
    | Aborted
    | NetworkError(raw: string)
    | HttpError(status: nat, serverError: Option<string>)
    | Succeeded(body: BodyOutcome)

  /** One `sendMessage` call: the text posted (`None` when nothing was sent),
      the state while the request is in flight, and the state after it. */
  datatype Send = Send(request: Option<string>, during: ChatState, after: ChatState)

  const NETWORK_PREFIX: string := "无法连接到服务，请检查 Gateway 是否已启动。\n原始错误："

  function InitialChat(): (s: ChatState)
    ensures s.messages == [] && !s.isLoading && s.error == None
  {
    ChatState([], false, None)
  }

  /** `formatNetworkError`: the fixed explanation followed by the raw error text. */
  function FormatNetworkError(raw: string): (r: string)
    ensures NETWORK_PREFIX <= r
    ensures EndsWith(r, raw) && |r| == |NETWORK_PREFIX| + |raw|
  {
    ConcatParts(NETWORK_PREFIX, raw);
    NETWORK_PREFIX + raw
  }

  /** Distinct raw errors give distinct texts: the raw error is never lost. */
  lemma NetworkErrorKeepsRaw(a: string, b: string)
    requires FormatNetworkError(a) == FormatNetworkError(b)
    ensures a == b
  {
    var r := FormatNetworkError(a);
    assert a == r[|NETWORK_PREFIX|..] == b;
  }

  /** The text `formatHttpError`'s table holds for a status, before the number. */
  function StatusLabel(status: nat): string {
    match status
    case 400 => "请求参数错误"
    case 401 => "认证失败，请检查配置"
    case 403 => "访问被拒绝"
    case 404 => "接口不存在，请检查 Gateway 版本"
    case 429 => "请求过于频繁，请稍后重试"
    case 500 => "服务内部错误"
    case 502 => "网关错误"
    case 503 => "服务暂时不可用"
    case _ => "请求失败"
  }

  /** `formatHttpError`: a non-empty server message verbatim, otherwise the
      table's text for the status followed by the status in parentheses. */
  function FormatHttpError(status: nat, serverMsg: Option<string>): (r: string)
    ensures serverMsg.Some? && serverMsg.value != "" ==> r == serverMsg.value
    ensures serverMsg.None? || serverMsg.value == "" ==>
      && StatusLabel(status) <= r
      && EndsWith(r, " (" + Decimal(status) + ")")
      && |r| == |StatusLabel(status)| + |" (" + Decimal(status) + ")"|
  {
    if serverMsg.Some? && serverMsg.value != "" then serverMsg.value
    else
      var name := StatusLabel(status);
      var tail := " (" + Decimal(status) + ")";
      ConcatParts(name, tail);
      name + tail
  }

  /** Without a server message the status can be read back from the text. */
  lemma HttpErrorNamesStatus(status: nat, serverMsg: Option<string>)
    requires serverMsg.None? || serverMsg.value == ""
    ensures var r := FormatHttpError(status, serverMsg);
      var digits := Decimal(status);
      && |r| >= |digits| + 1
      && AllDigits(r[|r| - 1 - |digits|..|r| - 1])
      && ParseDecimal(r[|r| - 1 - |digits|..|r| - 1]) == status
  {
    ParenthesizedSuffix(FormatHttpError(status, serverMsg), Decimal(status));
    DecimalRoundTrip(status);
  }

  /** The assistant message `pushErrorAssistant` appends. */
  function ErrorReply(stamp: Stamp, text: string): ChatMessage {
    ChatMessage(stamp.id, Assistant, text, stamp.timestamp, Error)
  }

  /** The outcomes that end in an error message. */
  predicate EndsInError(outcome: FetchOutcome) {
    || outcome.NetworkError?
    || outcome.HttpError?
    || (outcome.Succeeded? && outcome.body.ParseFailed?)
  }

  /** What the gateway's outcome adds to the chat: an assistant message, unless
      the request was aborted before a response, and the error it reports. */
  datatype Reply = Reply(message: Option<ChatMessage>, error: Option<string>)

  /** The part of `sendMessage` after the request: how one outcome becomes at
      most one assistant message. */
  function Respond(outcome: FetchOutcome, stamp: Stamp): (r: Reply)
    ensures r.message.None? <==> outcome.Aborted?
    ensures outcome.Aborted? ==> r.error == None
    ensures r.message.Some? ==>
      var m := r.message.value;
      && m.role == Assistant && m.id == stamp.id && m.timestamp == stamp.timestamp
      && m.status != Streaming
      && (EndsInError(outcome) <==> m.status == Error)
      && (EndsInError(outcome) ==> r.error == Some(m.content))
      && (!EndsInError(outcome) ==> m.status == Done && r.error == None)
      && (outcome.NetworkError? ==> m.content == FormatNetworkError(outcome.raw))
      && (outcome.HttpError? ==> m.content == FormatHttpError(outcome.status, outcome.serverError))
      && (outcome.Succeeded? ==> ReplyMatchesBody(m.content, outcome.body))
  {
    match outcome
    case Aborted => Reply(None, None)
    case NetworkError(raw) =>
      var text := FormatNetworkError(raw);
      Reply(Some(ErrorReply(stamp, text)), Some(text))
    case HttpError(status, serverError) =>
      var text := FormatHttpError(status, serverError);
      Reply(Some(ErrorReply(stamp, text)), Some(text))
    case Succeeded(body) =>
      match body
      case ParseFailed(message) => Reply(Some(ErrorReply(stamp, message)), Some(message))
      case AbortedDuringBody => Reply(Some(ChatMessage(stamp.id, Assistant, "", stamp.timestamp, Done)), None)
      case Parsed(reply, response, bodyContent, stringified) =>
        var text := reply.GetOr(response.GetOr(bodyContent.GetOr(stringified)));
        Reply(Some(ChatMessage(stamp.id, Assistant, text, stamp.timestamp, Done)), None)
  }

  /** The messages after a request: the pending list and the reply, if any. */
  function Conclude(pending: seq<ChatMessage>, reply: Reply): (r: ChatState)
    ensures pending <= r.messages && !r.isLoading && r.error == reply.error
    ensures reply.message.None? ==> r.messages == pending
    ensures reply.message.Some? ==>
      |r.messages| == |pending| + 1 && r.messages[|pending|] == reply.message.value
  {
    if reply.message.Some? then ChatState(pending + [reply.message.value], false, reply.error)
    else ChatState(pending, false, reply.error)
  }

  /** The input check of `sendMessage`: the trimmed text, or nothing when the
      input is white space only. */
  function TrimmedInput(content: string): (r: Option<string>)
    ensures r.None? <==> AllWhitespace(content)
    ensures r.Some? ==> r.value == Trim(content) && IsTrimmed(r.value)
  {
    TrimEmptyIff(content);
    var trimmed := Trim(content);
    if trimmed == [] then None else Some(trimmed)
  }

  /** A request sent again as typed is the same request. */
  lemma TrimmedInputStable(content: string)
    requires TrimmedInput(content).Some?
    ensures TrimmedInput(TrimmedInput(content).value) == TrimmedInput(content)
  {
    var request := TrimmedInput(content).value;
    TrimmedIsFixpoint(request);
  }

  /** `sendMessage`. */
  function SendMessage(s: ChatState, content: string, outcome: FetchOutcome, userStamp: Stamp, replyStamp: Stamp)
    : (r: Send)
    // white space only: nothing is sent and nothing changes
    ensures r.request == TrimmedInput(content)
    ensures r.request.None? ==> r.during == s && r.after == s
    // otherwise the trimmed text is posted after a user message for it
    ensures r.request.Some? ==>
      && r.during == ChatState(s.messages + [ChatMessage(userStamp.id, User, r.request.value, userStamp.timestamp, Done)],
                               true, None)
      && r.during.messages <= r.after.messages
      && !r.after.isLoading
    // then exactly one assistant message more, the reply to the outcome,
    // unless the request was aborted before a response
    ensures r.request.Some? ==>
      && |r.after.messages| == |s.messages| + (if outcome.Aborted? then 1 else 2)
      && r.after.error == Respond(outcome, replyStamp).error
      && (!outcome.Aborted? ==> r.after.messages[|s.messages| + 1] == Respond(outcome, replyStamp).message.value)
  {
    match TrimmedInput(content)
    case None => Send(None, s, s)
    case Some(trimmed) =>
      var user := ChatMessage(userStamp.id, User, trimmed, userStamp.timestamp, Done);
      var during := ChatState(s.messages + [user], true, None);
      var after := Conclude(during.messages, Respond(outcome, replyStamp));
      Send(Some(trimmed), during, after)
  }

  /** What the assistant message holds for a body: the parse error's message,
      nothing after an abort, or the first of `reply`, `response`, `content`
      that is present, falling back to the whole body as JSON. */
  predicate ReplyMatchesBody(text: string, body: BodyOutcome) {
    match body
    case ParseFailed(message) => text == message
    case AbortedDuringBody => text == ""
    case Parsed(reply, response, content, stringified) =>
      if reply.Some? then text == reply.value
      else if response.Some? then text == response.value
      else if content.Some? then text == content.value
      else text == stringified
  }

  function MarkDone(m: ChatMessage): ChatMessage {
    if m.status == Streaming then m.(status := Done) else m
  }

  predicate NoStreaming(messages: seq<ChatMessage>) {
    forall i :: 0 <= i < |messages| ==> messages[i].status != Streaming
  }

  /** `abortResponse`: every streaming message is marked done and loading stops;
      messages keep their order, ids, roles and contents. */
  function AbortResponse(s: ChatState): (r: ChatState)
    ensures |r.messages| == |s.messages| && NoStreaming(r.messages)
    ensures forall i :: 0 <= i < |s.messages| ==>
      && r.messages[i].id == s.messages[i].id
      && r.messages[i].role == s.messages[i].role
      && r.messages[i].content == s.messages[i].content
      && r.messages[i].timestamp == s.messages[i].timestamp
      && (s.messages[i].status == Streaming ==> r.messages[i].status == Done)
      && (s.messages[i].status != Streaming ==> r.messages[i].status == s.messages[i].status)
    ensures !r.isLoading && r.error == s.error
  {
    ChatState(seq(|s.messages|, i requires 0 <= i < |s.messages| => MarkDone(s.messages[i])), false, s.error)
  }

  /** `clearMessages`: no messages and no error; loading is left as it was. */
  function ClearMessages(s: ChatState): (r: ChatState)
    ensures r.messages == [] && r.error == None && r.isLoading == s.isLoading
  {
    s.(messages := [], error := None)
  }

  /** Aborting twice is aborting once. */
  lemma AbortIdempotent(s: ChatState)
    ensures AbortResponse(AbortResponse(s)) == AbortResponse(s)
  {
    var a := AbortResponse(s);
    assert AbortResponse(a).messages == a.messages;
  }

  /** Aborting changes nothing once nothing streams and nothing loads. */
  lemma AbortQuiet(s: ChatState)
    requires NoStreaming(s.messages) && !s.isLoading
    ensures AbortResponse(s) == s
  {
    assert AbortResponse(s).messages == s.messages;
  }

  /** Concluding a request adds no streaming message. */
  lemma ConcludeNoStreaming(pending: seq<ChatMessage>, reply: Reply)
    requires NoStreaming(pending)
    requires reply.message.Some? ==> reply.message.value.status != Streaming
    ensures NoStreaming(Conclude(pending, reply).messages)
  {
    var messages := Conclude(pending, reply).messages;
    forall i | 0 <= i < |messages| ensures messages[i].status != Streaming {
      if i < |pending| {
        assert messages[i] == pending[i];
      }
    }
  }

  /** The messages a sent request ends with: the user message, then the reply. */
  lemma SendShape(s: ChatState, content: string, outcome: FetchOutcome, u: Stamp, a: Stamp)
    requires SendMessage(s, content, outcome, u, a).request.Some?
    ensures var send := SendMessage(s, content, outcome, u, a);
      send.after == Conclude(s.messages + [ChatMessage(u.id, User, send.request.value, u.timestamp, Done)],
                             Respond(outcome, a))
  {
  }

  lemma AppendNoStreaming(messages: seq<ChatMessage>, m: ChatMessage)
    requires NoStreaming(messages) && m.status != Streaming
    ensures NoStreaming(messages + [m])
  {
    var all := messages + [m];
    forall i | 0 <= i < |all| ensures all[i].status != Streaming {
      if i < |messages| {
        assert all[i] == messages[i];
      }
    }
  }

  /** `sendMessage` never leaves a streaming message behind, so aborting after
      it only stops loading, which has stopped already. */
  lemma SendLeavesNothingToAbort(s: ChatState, content: string, outcome: FetchOutcome, u: Stamp, a: Stamp)
    requires NoStreaming(s.messages)
    ensures var send := SendMessage(s, content, outcome, u, a);
      NoStreaming(send.after.messages) && (send.request.Some? ==> AbortResponse(send.after) == send.after)
  {
    var send := SendMessage(s, content, outcome, u, a);
    if send.request.Some? {
      var user := ChatMessage(u.id, User, send.request.value, u.timestamp, Done);
      SendShape(s, content, outcome, u, a);
      AppendNoStreaming(s.messages, user);
      ConcludeNoStreaming(s.messages + [user], Respond(outcome, a));
      AbortQuiet(send.after);
    }
  }

  /** Every user message holds text that is non-empty and already trimmed. */
  predicate UserMessagesTrimmed(messages: seq<ChatMessage>) {
    forall i :: 0 <= i < |messages| && messages[i].role == User ==>
      IsTrimmed(messages[i].content)
  }

  lemma AppendUserKeepsTrimmed(before: seq<ChatMessage>, user: ChatMessage)
    requires UserMessagesTrimmed(before) && IsTrimmed(user.content)
    ensures UserMessagesTrimmed(before + [user])
  {
    var after := before + [user];
    forall i | 0 <= i < |after| && after[i].role == User ensures IsTrimmed(after[i].content) {
      if i < |before| {
        assert after[i] == before[i];
      }
    }
  }

  lemma ConcludeKeepsTrimmed(pending: seq<ChatMessage>, reply: Reply)
    requires UserMessagesTrimmed(pending)
    requires reply.message.Some? ==> reply.message.value.role == Assistant
    ensures UserMessagesTrimmed(Conclude(pending, reply).messages)
  {
    var after := Conclude(pending, reply).messages;
    forall i | 0 <= i < |after| && after[i].role == User ensures IsTrimmed(after[i].content) {
      if i < |pending| {
        assert after[i] == pending[i];
      }
    }
  }

  /** Sending keeps user messages trimmed and non-empty. */
  lemma SendKeepsUserMessagesTrimmed(s: ChatState, content: string, outcome: FetchOutcome, u: Stamp, a: Stamp)
    requires UserMessagesTrimmed(s.messages)
    ensures UserMessagesTrimmed(SendMessage(s, content, outcome, u, a).after.messages)
  {
    var send := SendMessage(s, content, outcome, u, a);
    if send.request.Some? {
      var user := ChatMessage(u.id, User, send.request.value, u.timestamp, Done);
      SendShape(s, content, outcome, u, a);
      AppendUserKeepsTrimmed(s.messages, user);
      ConcludeKeepsTrimmed(s.messages + [user], Respond(outcome, a));
    }
  }

  /** Aborting and clearing keep user messages trimmed and non-empty. */
  lemma AbortAndClearKeepUserMessagesTrimmed(s: ChatState)
    requires UserMessagesTrimmed(s.messages)
    ensures UserMessagesTrimmed(AbortResponse(s).messages)
    ensures UserMessagesTrimmed(ClearMessages(s).messages)
  {
  }
}

=== FILE: filesystem.dfy ===
/** An abstract file system standing in for the parts of `std::fs` the native
    side calls. A file system maps each existing path to a directory or to a
    file with its bytes and Unix permission bits. The root `[]` always exists and
    is a directory, whether or not the map mentions it. */
module FileSystem {
  import opened Results
  import opened Paths

  type Bytes = seq<bv8>

  datatype Node = Dir | File(content: Bytes, mode: nat)

  type FileSystem = map<Path, Node>

  /** The outcome of a step that may change the file system: its result, and
      the file system it leaves behind (also on error, since an operation that
      fails half-way keeps what it already did). */
  datatype Effect<+T> = Effect(out: Result<T>, fs: FileSystem)

  const OS_NOT_FOUND: string := "No such file or directory (os error 2)"
  const OS_EXISTS: string := "File exists (os error 17)"
  const OS_IS_DIR: string := "Is a directory (os error 21)"
  const OS_NOT_REGULAR: string := "the source path is neither a regular file nor a symlink to a regular file"

  /** `Path::exists`. */
  predicate Exists(fs: FileSystem, p: Path) {
    p == [] || p in fs
  }

  predicate IsDir(fs: FileSystem, p: Path) {
    p == [] || (p in fs && fs[p].Dir?)
  }

  predicate IsFile(fs: FileSystem, p: Path) {
    p in fs && fs[p].File?
  }

  /** `Path::parent`: every path but the root has one. */
  function Parent(p: Path): (r: Option<Path>)
    ensures r.None? <==> p == []
    ensures r.Some? ==> r.value < p && |r.value| == |p| - 1
  {
    if p == [] then None else Some(p[..|p| - 1])
  }

  /** `q` is `p` or one of its ancestors. */
  predicate AtOrAbove(q: Path, p: Path) {
    q <= p
  }

  /** A path strictly above `p` is at or above `p`'s parent. */
  lemma AboveIsAtOrAboveParent(q: Path, p: Path)
    requires AtOrAbove(q, p) && q != p
    ensures AtOrAbove(q, p[..|p| - 1])
  {
  }

  /** What every real file system satisfies: each ancestor of an entry, up to
      the root, exists and is a directory. */
  ghost predicate WellFormed(fs: FileSystem) {
    forall q, a :: q in fs && AtOrAbove(a, q) && a != q && a != [] ==> IsDir(fs, a)
  }

  /** No component along `p`, `p` included, is an existing file. */
  predicate DirsCreatable(fs: FileSystem, p: Path) {
    forall q :: AtOrAbove(q, p) && q != [] && q in fs ==> fs[q].Dir?
  }

  /** Every entry of `fs` is still in `fs'`, unchanged. */
  predicate Preserves(fs: FileSystem, fs': FileSystem) {
    forall q :: q in fs ==> q in fs' && fs'[q] == fs[q]
  }

  /** `fs::create_dir_all`: creates `p` and every missing ancestor as
      directories. Like the Rust function, it stops at the first path that
      already is a directory, and fails, changing nothing, at one that is a file. */
  function CreateDirAll(fs: FileSystem, p: Path): (r: Result<FileSystem>)
    ensures DirsCreatable(fs, p) ==> r.Ok?
    ensures WellFormed(fs) && r.Ok? ==> DirsCreatable(fs, p)
    ensures r.Err? ==> r.error == OS_EXISTS
    ensures r.Ok? ==> Preserves(fs, r.value) && IsDir(r.value, p)
    ensures r.Ok? ==> forall q :: q in r.value && q !in fs ==> AtOrAbove(q, p) && r.value[q] == Dir
    ensures WellFormed(fs) && r.Ok? ==> WellFormed(r.value)
    ensures WellFormed(fs) && r.Ok? ==> forall q :: AtOrAbove(q, p) ==> IsDir(r.value, q)
    decreases |p|
  {
    if p == [] then Ok(fs)
    else if p in fs then
      if fs[p].Dir? then Ok(fs) else Err(OS_EXISTS)
    else
      var up := p[..|p| - 1];
      match CreateDirAll(fs, up)
      case Err(e) =>
        assert !DirsCreatable(fs, p) by {
          if DirsCreatable(fs, p) {
            forall q | AtOrAbove(q, up) ensures AtOrAbove(q, p) { }
          }
        }
        Err(e)
      case Ok(fs1) =>
        var fs2 := fs1[p := Dir];
        assert forall q | AtOrAbove(q, p) && q != p :: AtOrAbove(q, up) by {
          forall q | AtOrAbove(q, p) && q != p ensures AtOrAbove(q, up) {
            AboveIsAtOrAboveParent(q, p);
          }
        }
        Ok(fs2)
  }

  /** `fs::copy`: the source must be a regular file and the destination's
      parent a directory; the copy takes the source's bytes and permission bits. */
  function Copy(fs: FileSystem, src: Path, dst: Path): (r: Result<FileSystem>)
    ensures r.Ok? <==> IsFile(fs, src) && dst != [] && IsDir(fs, Parent(dst).value) && !IsDir(fs, dst)
    ensures r.Ok? ==> r.value == fs[dst := fs[src]]
    ensures WellFormed(fs) && r.Ok? ==> WellFormed(r.value)
  {
    if src !in fs then Err(OS_NOT_FOUND)
    else if fs[src].Dir? then Err(OS_NOT_REGULAR)
    else if dst == [] || !IsDir(fs, dst[..|dst| - 1]) then Err(OS_NOT_FOUND)
    else if IsDir(fs, dst) then Err(OS_IS_DIR)
    else
      var fs' := fs[dst := fs[src]];
      assert WellFormed(fs) ==> WellFormed(fs') by {
        if WellFormed(fs) {
          forall q, a | q in fs' && AtOrAbove(a, q) && a != q && a != [] ensures IsDir(fs', a) {
            if q == dst {
              AboveIsAtOrAboveParent(a, q);
            }
          }
        }
      }
      Ok(fs')
  }

  /** `fs::set_permissions` with a Unix mode: a file takes the new bits; a
      directory's bits are not part of this model. */
  function SetMode(fs: FileSystem, p: Path, mode: nat): (r: Result<FileSystem>)
    ensures r.Ok? <==> Exists(fs, p)
    ensures r.Ok? && IsFile(fs, p) ==> r.value == fs[p := File(fs[p].content, mode)]
    ensures r.Ok? && !IsFile(fs, p) ==> r.value == fs
    ensures WellFormed(fs) && r.Ok? ==> WellFormed(r.value)
  {
    if !Exists(fs, p) then Err(OS_NOT_FOUND)
    else if IsFile(fs, p) then Ok(fs[p := File(fs[p].content, mode)])
    else Ok(fs)
  }
}

=== FILE: init.dfy ===
/** First-run initialisation of the agent (`commands/init.rs`): the
    initialised check, the guarded `onboard` run, and the two-step
    initialisation from a resource directory. */
module Init {
  import opened Results
  import opened Text
  import opened Paths
  import opened FileSystem
  import opened Install

  const CONFIG_TOML: string := "config.toml"
  /** Unix mode 0o600, rw-------. */
  const CONFIG_MODE: nat := 0x180
  const DONE_MESSAGE: string := "ZeroClaw initialization completed successfully"

  /** `check_initialized`: whether the configuration file under the home
      directory exists; an unknown home directory is an error. */
  function CheckInitialized(home: Option<Path>, fs: FileSystem): (r: Result<bool>)
    ensures r.Err? <==> home.None?
    ensures r.Err? ==> r.error == HOME_ERROR
    ensures r.Ok? ==> (r.value <==> Exists(fs, home.value + [OPENCLAW_NAME, CONFIG_NAME]))
  {
    var path :- ConfigFilePath(home);
    assert path == home.value + [OPENCLAW_NAME, CONFIG_NAME];
    Ok(Exists(fs, path))
  }

  /** The agent's own directory under the home directory, `~/.zeroclaw`. */
  const ZEROCLAW_NAME: string := ".zeroclaw"

  /** The initialised check as `check_initialized`'s own description has it:
      whether the `config.toml` that initialisation writes, and guards its
      `onboard` run on, exists under `~/.zeroclaw`. */
  function CheckConfigured(home: Option<Path>, fs: FileSystem): (r: Result<bool>)
    ensures r.Err? <==> home.None?
    ensures r.Err? ==> r.error == HOME_ERROR
    ensures r.Ok? ==> (r.value <==> Exists(fs, ConfigToml(home.value + [ZEROCLAW_NAME])))
  {
    if home.None? then Err(HOME_ERROR)
    else Ok(Exists(fs, ConfigToml(home.value + [ZEROCLAW_NAME])))
  }

  /** What running `<bin> onboard …` does, as seen from here: it could not be
      started, or it exited (with a code, or without one when a signal ended
      it) leaving the file system in some state. */
  datatype OnboardRun =
    | SpawnFailed(reason: string)
    | Exited(code: Option<int>, stderr: string, after: FileSystem)

  /** The external `onboard` program: an opaque effect of the binary's path and
      the file system it runs on. */
  type Onboard = (Path, FileSystem) -> OnboardRun

  function ConfigToml(zeroclawDir: Path): Path {
    zeroclawDir + [CONFIG_TOML]
  }

  /** `run_zeroclaw_onboard`: runs `onboard` unless `config.toml` exists, fails
      on a spawn failure or a non-zero exit, and restricts `config.toml` to
      mode 0o600 afterwards. */
  function RunOnboard(fs: FileSystem, bin: Path, zeroclawDir: Path, onboard: Onboard): (r: Effect<()>)
    // already configured: the program is not run and nothing changes
    ensures Exists(fs, ConfigToml(zeroclawDir)) ==> r == Effect(Ok(()), fs)
    // a program that cannot be started: the reason is reported, nothing changes
    ensures !Exists(fs, ConfigToml(zeroclawDir)) && onboard(bin, fs).SpawnFailed? ==>
      && r.out.Err? && r.fs == fs
      && "Failed to run zeroclaw onboard: " <= r.out.error
      && EndsWith(r.out.error, onboard(bin, fs).reason)
    ensures !Exists(fs, ConfigToml(zeroclawDir)) && onboard(bin, fs).Exited? ==>
      var run := onboard(bin, fs);
      // a failed run reports its exit code (−1 for none) and its error output
      && (run.code != Some(0) ==>
            && r.out.Err? && r.fs == run.after
            && "zeroclaw onboard failed (exit " + IntToString(run.code.GetOr(-1)) + "): " <= r.out.error
            && EndsWith(r.out.error, run.stderr))
      && (run.code == Some(0) ==> r.out.Ok?)
    // after a successful run the configuration is private to its owner, and
    // nothing else differs from what the program left
    ensures !Exists(fs, ConfigToml(zeroclawDir)) && r.out.Ok? ==>
      var run := onboard(bin, fs);
      && run.Exited? && run.code == Some(0)
      && (forall q :: q in run.after && q != ConfigToml(zeroclawDir) ==> q in r.fs && r.fs[q] == run.after[q])
      && r.fs.Keys == run.after.Keys
      && (IsFile(run.after, ConfigToml(zeroclawDir)) ==>
            r.fs[ConfigToml(zeroclawDir)] == File(run.after[ConfigToml(zeroclawDir)].content, CONFIG_MODE))
  {
    var config := ConfigToml(zeroclawDir);
    if Exists(fs, config) then Effect(Ok(()), fs)
    else
      match onboard(bin, fs)
      case SpawnFailed(reason) =>
        Effect(Err("Failed to run zeroclaw onboard: " + reason), fs)
      case Exited(code, stderr, after) =>
        if code != Some(0) then
          Effect(Err("zeroclaw onboard failed (exit " + IntToString(code.GetOr(-1)) + "): " + stderr), after)
        else if Exists(after, config) then
          match SetMode(after, config, CONFIG_MODE)
          case Err(e) => Effect(Err("Failed to set config permissions: " + e), after)
          case Ok(fs1) => Effect(Ok(()), fs1)
        else
          Effect(Ok(()), after)
  }

  function BinarySource(resourceDir: Path): Path {
    resourceDir + ["bin", "zeroclaw"]
  }

  function BinaryTarget(zeroclawDir: Path): Path {
    zeroclawDir + ["bin", "zeroclaw"]
  }

  /** `initialize_from_resource_dir`: installs the bundled binary when the
      resource directory has one, then runs `onboard` when an installed binary
      exists. */
  function InitializeFromResourceDir(fs: FileSystem, resourceDir: Path, zeroclawDir: Path, onboard: Onboard)
    : (r: Effect<string>)
    ensures r.out.Ok? ==> r.out.value == DONE_MESSAGE
    // a failed install of the bundled binary is returned at once, before
    // `onboard` could run
    ensures var installed := InstallBinary(fs, BinarySource(resourceDir), BinaryTarget(zeroclawDir));
      Exists(fs, BinarySource(resourceDir)) && installed.out.Err? ==>
        r == Effect(Err(installed.out.error), installed.fs)
    // configured: a bundled binary is still installed, and nothing else happens
    ensures var installed := InstallBinary(fs, BinarySource(resourceDir), BinaryTarget(zeroclawDir));
      Exists(fs, BinarySource(resourceDir)) && Exists(fs, ConfigToml(zeroclawDir)) && installed.out.Ok? ==>
        r == Effect(Ok(DONE_MESSAGE), installed.fs)
    // with neither a bundled nor an installed binary: success without a write
    ensures !Exists(fs, BinarySource(resourceDir)) && !Exists(fs, BinaryTarget(zeroclawDir)) ==>
      r == Effect(Ok(DONE_MESSAGE), fs)
    // already installed and configured: success without a write
    ensures Exists(fs, BinaryTarget(zeroclawDir)) && Exists(fs, ConfigToml(zeroclawDir)) ==>
      r == Effect(Ok(DONE_MESSAGE), fs)
    // configured: no existing entry is touched, whatever the bundled binary is
    ensures Exists(fs, ConfigToml(zeroclawDir)) ==> Preserves(fs, r.fs)
    // installed but not configured: it succeeds exactly when `onboard`, run
    // with the installed binary, exits with status 0
    ensures Exists(fs, BinaryTarget(zeroclawDir)) && !Exists(fs, ConfigToml(zeroclawDir)) ==>
      var run := onboard(BinaryTarget(zeroclawDir), fs);
      && (r.out.Ok? <==> run.Exited? && run.code == Some(0))
      && r.fs == RunOnboard(fs, BinaryTarget(zeroclawDir), zeroclawDir, onboard).fs
      && (r.out.Err? ==>
            var step := RunOnboard(fs, BinaryTarget(zeroclawDir), zeroclawDir, onboard).out;
            step.Err? && r.out.error == step.error)
    // first run: the bundled binary is installed, then `onboard` runs with it
    ensures && IsFile(fs, BinarySource(resourceDir)) && !Exists(fs, BinaryTarget(zeroclawDir))
            && DirsCreatable(fs, zeroclawDir + ["bin"]) && !Exists(fs, ConfigToml(zeroclawDir)) ==>
      var fs1 := InstallBinary(fs, BinarySource(resourceDir), BinaryTarget(zeroclawDir)).fs;
      var run := onboard(BinaryTarget(zeroclawDir), fs1);
      && fs1[BinaryTarget(zeroclawDir)] == File(fs[BinarySource(resourceDir)].content, EXEC_MODE)
      && (r.out.Ok? <==> run.Exited? && run.code == Some(0))
      && r.fs == RunOnboard(fs1, BinaryTarget(zeroclawDir), zeroclawDir, onboard).fs
      && (r.out.Err? ==>
            var step := RunOnboard(fs1, BinaryTarget(zeroclawDir), zeroclawDir, onboard).out;
            step.Err? && r.out.error == step.error)
  {
    var binSrc := BinarySource(resourceDir);
    var binDst := BinaryTarget(zeroclawDir);
    var installed := if Exists(fs, binSrc) then InstallBinary(fs, binSrc, binDst) else Effect(Ok(true), fs);
    if installed.out.Err? then Effect(Err(installed.out.error), installed.fs)
    else
      var fs1 := installed.fs;
      assert Exists(fs, ConfigToml(zeroclawDir)) <==> Exists(fs1, ConfigToml(zeroclawDir)) by {
        var config := ConfigToml(zeroclawDir);
        assert config != binDst && !AtOrAbove(config, binDst) by {
          assert config[|zeroclawDir|] != binDst[|zeroclawDir|];
        }
      }
      var onboarded := if Exists(fs1, binDst) then RunOnboard(fs1, binDst, zeroclawDir, onboard) else Effect(Ok(()), fs1);
      if onboarded.out.Err? then Effect(Err(onboarded.out.error), onboarded.fs)
      else Effect(Ok(DONE_MESSAGE), onboarded.fs)
  }

  /** A first run with an `onboard` that writes the configuration and leaves
      the binary alone: it succeeds, the bundled binary is installed with mode
      0o755, and the configuration is restricted to mode 0o600. */
  lemma FirstRunInstallsAndConfigures(fs: FileSystem, resourceDir: Path, zeroclawDir: Path, onboard: Onboard)
    requires && IsFile(fs, BinarySource(resourceDir)) && !Exists(fs, BinaryTarget(zeroclawDir))
             && DirsCreatable(fs, zeroclawDir + ["bin"]) && !Exists(fs, ConfigToml(zeroclawDir))
    requires var fs1 := InstallBinary(fs, BinarySource(resourceDir), BinaryTarget(zeroclawDir)).fs;
      var run := onboard(BinaryTarget(zeroclawDir), fs1);
      && run.Exited? && run.code == Some(0) && IsFile(run.after, ConfigToml(zeroclawDir))
      && BinaryTarget(zeroclawDir) in fs1 && BinaryTarget(zeroclawDir) in run.after
      && run.after[BinaryTarget(zeroclawDir)] == fs1[BinaryTarget(zeroclawDir)]
    ensures var r := InitializeFromResourceDir(fs, resourceDir, zeroclawDir, onboard);
      var run := onboard(BinaryTarget(zeroclawDir),
                         InstallBinary(fs, BinarySource(resourceDir), BinaryTarget(zeroclawDir)).fs);
      && r.out == Ok(DONE_MESSAGE)
      && BinaryTarget(zeroclawDir) in r.fs && ConfigToml(zeroclawDir) in r.fs
      && r.fs[BinaryTarget(zeroclawDir)] == File(fs[BinarySource(resourceDir)].content, EXEC_MODE)
      && r.fs[ConfigToml(zeroclawDir)] == File(run.after[ConfigToml(zeroclawDir)].content, CONFIG_MODE)
  {
    var target, config := BinaryTarget(zeroclawDir), ConfigToml(zeroclawDir);
    assert config != target && !AtOrAbove(config, target) by {
      assert config[|zeroclawDir|] != target[|zeroclawDir|];
    }
    var fs1 := InstallBinary(fs, BinarySource(resourceDir), target).fs;
    var run := onboard(target, fs1);
    var r := InitializeFromResourceDir(fs, resourceDir, zeroclawDir, onboard);
    var onboarded := RunOnboard(fs1, target, zeroclawDir, onboard);
    assert !Exists(fs1, config);
    assert r.fs == onboarded.fs && onboarded.out.Ok?;
    assert r.fs[target] == run.after[target];
  }

  /** A first run whose `onboard` exits with 0 succeeds and leaves exactly the
      entries the program left. */
  lemma FirstRunKeepsOnboardEntries(fs: FileSystem, resourceDir: Path, zeroclawDir: Path, onboard: Onboard)
    requires && IsFile(fs, BinarySource(resourceDir)) && !Exists(fs, BinaryTarget(zeroclawDir))
             && DirsCreatable(fs, zeroclawDir + ["bin"]) && !Exists(fs, ConfigToml(zeroclawDir))
    requires var fs1 := InstallBinary(fs, BinarySource(resourceDir), BinaryTarget(zeroclawDir)).fs;
      var run := onboard(BinaryTarget(zeroclawDir), fs1);
      run.Exited? && run.code == Some(0)
    ensures var r := InitializeFromResourceDir(fs, resourceDir, zeroclawDir, onboard);
      var run := onboard(BinaryTarget(zeroclawDir),
                         InstallBinary(fs, BinarySource(resourceDir), BinaryTarget(zeroclawDir)).fs);
      r.out == Ok(DONE_MESSAGE) && r.fs.Keys == run.after.Keys
  {
    var target, config := BinaryTarget(zeroclawDir), ConfigToml(zeroclawDir);
    assert config != target && !AtOrAbove(config, target) by {
      assert config[|zeroclawDir|] != target[|zeroclawDir|];
    }
    var fs1 := InstallBinary(fs, BinarySource(resourceDir), target).fs;
    assert !Exists(fs1, config);
  }

  /** As written, `check_initialized` looks at `~/.openclaw/openclaw.json`, a
      file initialisation never writes: after a successful first run whose
      `onboard` wrote only its own files, the check still answers "not
      initialised", so every start initialises again. */
  lemma FirstRunNotReportedAsWritten(home: Path, fs: FileSystem, resourceDir: Path, onboard: Onboard)
    requires var zeroclawDir := home + [ZEROCLAW_NAME];
      && IsFile(fs, BinarySource(resourceDir)) && !Exists(fs, BinaryTarget(zeroclawDir))
      && DirsCreatable(fs, zeroclawDir + ["bin"]) && !Exists(fs, ConfigToml(zeroclawDir))
    requires var zeroclawDir := home + [ZEROCLAW_NAME];
      var fs1 := InstallBinary(fs, BinarySource(resourceDir), BinaryTarget(zeroclawDir)).fs;
      var run := onboard(BinaryTarget(zeroclawDir), fs1);
      && run.Exited? && run.code == Some(0) && IsFile(run.after, ConfigToml(zeroclawDir))
      && home + [OPENCLAW_NAME, CONFIG_NAME] !in run.after
    ensures var r := InitializeFromResourceDir(fs, resourceDir, home + [ZEROCLAW_NAME], onboard);
      && r.out == Ok(DONE_MESSAGE)
      && CheckInitialized(Some(home), r.fs) == Ok(false)
  {
    FirstRunKeepsOnboardEntries(fs, resourceDir, home + [ZEROCLAW_NAME], onboard);
  }

  /** With the check looking where initialisation writes, a successful first
      run whose `onboard` wrote the configuration is reported as initialised. */
  lemma FirstRunReported(home: Path, fs: FileSystem, resourceDir: Path, onboard: Onboard)
    requires var zeroclawDir := home + [ZEROCLAW_NAME];
      && IsFile(fs, BinarySource(resourceDir)) && !Exists(fs, BinaryTarget(zeroclawDir))
      && DirsCreatable(fs, zeroclawDir + ["bin"]) && !Exists(fs, ConfigToml(zeroclawDir))
    requires var zeroclawDir := home + [ZEROCLAW_NAME];
      var fs1 := InstallBinary(fs, BinarySource(resourceDir), BinaryTarget(zeroclawDir)).fs;
      var run := onboard(BinaryTarget(zeroclawDir), fs1);
      && run.Exited? && run.code == Some(0) && IsFile(run.after, ConfigToml(zeroclawDir))
    ensures var r := InitializeFromResourceDir(fs, resourceDir, home + [ZEROCLAW_NAME], onboard);
      && r.out == Ok(DONE_MESSAGE)
      && CheckConfigured(Some(home), r.fs) == Ok(true)
  {
    FirstRunKeepsOnboardEntries(fs, resourceDir, home + [ZEROCLAW_NAME], onboard);
  }

  /** And once that check reports "initialised" with the binary installed,
      initialising again changes nothing, whatever `onboard` would do. */
  lemma ReportedMeansNothingToDo(home: Path, fs: FileSystem, resourceDir: Path, onboard: Onboard)
    requires CheckConfigured(Some(home), fs) == Ok(true)
    requires Exists(fs, BinaryTarget(home + [ZEROCLAW_NAME]))
    ensures InitializeFromResourceDir(fs, resourceDir, home + [ZEROCLAW_NAME], onboard) == Effect(Ok(DONE_MESSAGE), fs)
  {
  }

  /** The `onboard` program is consulted only when `config.toml` is missing and
      a binary is installed (or about to be): otherwise the outcome is the same
      whatever the program would do. */
  lemma OnboardNotRunWhenConfigured(fs: FileSystem, resourceDir: Path, zeroclawDir: Path, o1: Onboard, o2: Onboard)
    requires Exists(fs, ConfigToml(zeroclawDir)) ||
      (!Exists(fs, BinarySource(resourceDir)) && !Exists(fs, BinaryTarget(zeroclawDir)))
    ensures InitializeFromResourceDir(fs, resourceDir, zeroclawDir, o1)
         == InitializeFromResourceDir(fs, resourceDir, zeroclawDir, o2)
  {
  }

  /** A second initialisation after one that configured the agent changes no
      file, even one the user edited in between. */
  lemma SecondInitializeKeepsEdits(fs: FileSystem, resourceDir: Path, zeroclawDir: Path, o1: Onboard, o2: Onboard,
                                   edited: Path, node: Node)
    requires var first := InitializeFromResourceDir(fs, resourceDir, zeroclawDir, o1);
      && first.out.Ok?
      && Exists(first.fs, ConfigToml(zeroclawDir)) && Exists(first.fs, BinaryTarget(zeroclawDir))
    ensures var fs1 := InitializeFromResourceDir(fs, resourceDir, zeroclawDir, o1).fs[edited := node];
      InitializeFromResourceDir(fs1, resourceDir, zeroclawDir, o2) == Effect(Ok(DONE_MESSAGE), fs1)
  {
  }
}

=== FILE: initialization.dfy ===
/** The start-up state machine of the web side (`useInitialization.ts`). The
    three backend commands it invokes are given as their outcomes; a run is
    the sequence of states it assigns, together with the commands it invokes. */
module Initialization {
  import opened Results
  import FileSystem
  import Init

  datatype InitStatus = Idle | Checking | Initializing | StartingGateway | Success | Error

  datatype InitState = InitState(status: InitStatus, progress: nat, message: string, error: Option<string>)

  /** How an `invoke` promise settles; a rejection carries `String(err)`. */
  datatype Invoke<+T> = Resolved(value: T) | Rejected(reason: string)

  datatype Command = CheckInitializedCmd | InitializeCmd | StartGatewayCmd

  datatype Run = Run(states: seq<InitState>, calls: seq<Command>) {
    /** The state the run leaves behind. */
    function Final(): InitState
      requires states != []
    {
      states[|states| - 1]
    }
  }

  const CHECKING_MESSAGE: string := "正在检查初始化状态..."
  const READY_MESSAGE: string := "就绪"
  const INITIALIZING_MESSAGE: string := "正在初始化配置文件..."
  const FAILED_MESSAGE: string := "初始化失败"
  const STARTING_MESSAGE: string := "正在启动服务..."
  const COMPLETED_MESSAGE: string := "初始化完成"

  /** The state before any run. */
  function InitialState(): (s: InitState)
    ensures s.status == Idle && s.progress == 0 && s.error == None
  {
    InitState(Idle, 0, "", None)
  }

  /** The moves a run may make from one assigned state to the next. */
  predicate Next(a: InitStatus, b: InitStatus) {
    match a
    case Checking => b == Success || b == Initializing
    case Initializing => b == Error || b == StartingGateway
    case StartingGateway => b == Success
    case _ => false
  }

  predicate Terminal(s: InitStatus) {
    s == Success || s == Error
  }

  /** `isInitialized` as the code reads it: a failed check counts as `false`. */
  function IsInitialized(check: Invoke<bool>): bool {
    check.Resolved? && check.value
  }

  /** `checkAndInitialize`. */
  function CheckAndInitialize(check: Invoke<bool>, init: Invoke<string>, gateway: Invoke<string>): (r: Run)
    ensures |r.states| >= 2 && r.states[0] == InitState(Checking, 10, CHECKING_MESSAGE, None)
    ensures forall i :: 0 <= i < |r.states| - 1 ==> Next(r.states[i].status, r.states[i + 1].status)
    ensures Terminal(r.Final().status)
    ensures forall i :: 0 <= i < |r.states| ==> (r.states[i].error.Some? <==> r.states[i].status == Error)
    ensures forall i, j :: 0 <= i < j < |r.states| ==> r.states[i].progress <= r.states[j].progress
    // already initialised: done, nothing else invoked
    ensures IsInitialized(check) ==>
      && r.calls == [CheckInitializedCmd] && |r.states| == 2
      && r.Final() == InitState(Success, 100, READY_MESSAGE, None)
    // not initialised: the second state announces initialisation at 30%
    ensures !IsInitialized(check) ==> r.states[1] == InitState(Initializing, 30, INITIALIZING_MESSAGE, None)
    // initialisation fails: an error at 30%, the gateway never started
    ensures !IsInitialized(check) && init.Rejected? ==>
      && r.calls == [CheckInitializedCmd, InitializeCmd] && |r.states| == 3
      && r.Final() == InitState(Error, 30, FAILED_MESSAGE, Some(init.reason))
    // initialisation succeeds: the gateway is started at 80%, then success at
    // 100%, whatever the gateway does
    ensures !IsInitialized(check) && init.Resolved? ==>
      && r.calls == [CheckInitializedCmd, InitializeCmd, StartGatewayCmd] && |r.states| == 4
      && r.states[2] == InitState(StartingGateway, 80, STARTING_MESSAGE, None)
      && r.Final() == InitState(Success, 100, COMPLETED_MESSAGE, None)
  {
    var checking := InitState(Checking, 10, CHECKING_MESSAGE, None);
    if IsInitialized(check) then
      Run([checking, InitState(Success, 100, READY_MESSAGE, None)], [CheckInitializedCmd])
    else
      var initializing := InitState(Initializing, 30, INITIALIZING_MESSAGE, None);
      match init
      case Rejected(reason) =>
        Run([checking, initializing, InitState(Error, 30, FAILED_MESSAGE, Some(reason))],
            [CheckInitializedCmd, InitializeCmd])
      case Resolved(_) =>
        // the gateway's outcome is only logged
        Run([checking, initializing, InitState(StartingGateway, 80, STARTING_MESSAGE, None),
             InitState(Success, 100, COMPLETED_MESSAGE, None)],
            [CheckInitializedCmd, InitializeCmd, StartGatewayCmd])
  }

  /** `retry`: another run of `checkAndInitialize`, whatever state it starts from. */
  function Retry(from: InitState, check: Invoke<bool>, init: Invoke<string>, gateway: Invoke<string>): (r: Run)
    ensures r == CheckAndInitialize(check, init, gateway)
  {
    CheckAndInitialize(check, init, gateway)
  }

  /** A failing `check_initialized` is treated exactly like one answering `false`. */
  lemma CheckFailureIsFalse(reason: string, init: Invoke<string>, gateway: Invoke<string>)
    ensures CheckAndInitialize(Rejected(reason), init, gateway) == CheckAndInitialize(Resolved(false), init, gateway)
  {
  }

  /** The gateway's outcome never changes a run. */
  lemma GatewayNeverBlocks(check: Invoke<bool>, init: Invoke<string>, g1: Invoke<string>, g2: Invoke<string>)
    ensures CheckAndInitialize(check, init, g1) == CheckAndInitialize(check, init, g2)
  {
  }

  /** A retry after an error reaches success once initialisation succeeds. */
  lemma RetryAfterError(first: Run, check: Invoke<bool>, init: Invoke<string>, gateway: Invoke<string>)
    requires first.states != [] && first.Final().status == Error
    requires init.Resolved?
    ensures Retry(first.Final(), check, init, gateway).Final().status == Success
  {
  }

  /** How a Rust command's result reaches the web side. */
  function Settle<T>(r: Result<T>): (p: Invoke<T>)
    ensures p.Resolved? <==> r.Ok?
    ensures r.Ok? ==> p.value == r.value
    ensures r.Err? ==> p.reason == r.error
  {
    match r
    case Ok(v) => Resolved(v)
    case Err(e) => Rejected(e)
  }

  /** With the home directory unknown, the check fails and the app goes on to
      initialise. */
  lemma UnknownHomeInitializes(fs: FileSystem.FileSystem, init: Invoke<string>, gateway: Invoke<string>)
    ensures InitializeCmd in CheckAndInitialize(Settle(Init.CheckInitialized(None, fs)), init, gateway).calls
    ensures InitializeCmd in CheckAndInitialize(Settle(Init.CheckConfigured(None, fs)), init, gateway).calls
  {
  }
}

=== FILE: install.dfy ===
/** `install_binary` (`utils/fs.rs`): copy-if-absent of an executable. */
module Install {
  import opened Results
  import opened Paths
  import opened FileSystem

  /** Unix mode 0o755, rwxr-xr-x. */
  const EXEC_MODE: nat := 0x1ED

  /** Installs `src` at `dst`: nothing happens when `dst` exists (`Ok(false)`);
      otherwise `dst`'s parent directories are created, `src` is copied and
      made executable (`Ok(true)`). */
  function InstallBinary(fs: FileSystem, src: Path, dst: Path): (r: Effect<bool>)
    // already installed: a no-op
    ensures Exists(fs, dst) ==> r == Effect(Ok(false), fs)
    ensures r.out.Ok? ==> (r.out.value <==> !Exists(fs, dst))
    // when it succeeds, and only then
    ensures !Exists(fs, dst) && IsFile(fs, src) && DirsCreatable(fs, Parent(dst).value) ==> r.out.Ok?
    ensures !IsFile(fs, src) && !Exists(fs, dst) ==> r.out.Err?
    // what a fresh install leaves behind
    ensures !Exists(fs, dst) && r.out.Ok? ==>
      IsFile(fs, src) && dst in r.fs && r.fs[dst] == File(fs[src].content, EXEC_MODE)
    ensures !Exists(fs, dst) && r.out.Err? ==> dst !in r.fs
    // nothing but `dst` and its missing ancestors is written
    ensures Preserves(fs, r.fs)
    ensures forall q :: q in r.fs && q !in fs ==>
      q == dst || (AtOrAbove(q, dst) && r.fs[q] == Dir)
  {
    if Exists(fs, dst) then Effect(Ok(false), fs)
    else
      var parent := dst[..|dst| - 1];
      match CreateDirAll(fs, parent)
      case Err(e) =>
        Effect(Err("Failed to create bin dir " + Display(parent) + ": " + e), fs)
      case Ok(fs1) =>
        match Copy(fs1, src, dst)
        case Err(e) =>
          Effect(Err("Failed to install binary " + Display(src) + " -> " + Display(dst) + ": " + e), fs1)
        case Ok(fs2) =>
          match SetMode(fs2, dst, EXEC_MODE)
          case Err(e) =>
            Effect(Err("Failed to set executable permission on " + Display(dst) + ": " + e), fs2)
          case Ok(fs3) =>
            Effect(Ok(true), fs3)
  }

  /** On a real file system an install succeeds only from a regular file into
      a place whose ancestors can be directories, and it leaves a real file
      system in which every ancestor of `dst` is a directory. */
  lemma InstallOnWellFormed(fs: FileSystem, src: Path, dst: Path)
    requires WellFormed(fs)
    ensures var r := InstallBinary(fs, src, dst);
      && (!Exists(fs, dst) && r.out.Ok? ==> IsFile(fs, src) && DirsCreatable(fs, Parent(dst).value))
      && (r.out.Ok? ==> WellFormed(r.fs) && forall a :: AtOrAbove(a, dst) && a != dst ==> IsDir(r.fs, a))
  {
    if !Exists(fs, dst) {
      var parent := dst[..|dst| - 1];
      forall a | AtOrAbove(a, dst) && a != dst ensures AtOrAbove(a, parent) {
        AboveIsAtOrAboveParent(a, dst);
      }
    }
  }

  /** Installing twice installs once: the second call reports `false` and the
      first copy stays, even when the source changed in between. */
  lemma InstallIdempotent(fs: FileSystem, src: Path, dst: Path, newSource: Node)
    requires InstallBinary(fs, src, dst).out == Ok(true)
    ensures var fs1 := InstallBinary(fs, src, dst).fs[src := newSource];
      && InstallBinary(fs1, src, dst) == Effect(Ok(false), fs1)
      && fs1[dst] == File(fs[src].content, EXEC_MODE)
  {
    assert src != dst;
  }
}

=== FILE: paths.dfy ===
/** Well-known locations under the user's home directory (`utils/paths.rs`).
    A path is its sequence of components; the home directory is an input that
    may be unknown, in which case every location is an error. */
module Paths {
  import opened Results

  type Path = seq<string>

  const HOME_ERROR: string := "Cannot determine home directory"
  const OPENCLAW_NAME: string := ".openclaw"
  const WORKSPACE_NAME: string := "workspace"
  const CONFIG_NAME: string := "openclaw.json"

  /** `~/.openclaw`: the home directory followed by one `.openclaw` component. */
  function OpenclawDir(home: Option<Path>): (r: Result<Path>)
    ensures r.Err? <==> home.None?
    ensures r.Err? ==> r.error == HOME_ERROR
    ensures r.Ok? ==> home.value < r.value && |r.value| == |home.value| + 1
    ensures r.Ok? ==> r.value[|r.value| - 1] == OPENCLAW_NAME
  {
    match home
    case None => Err(HOME_ERROR)
    case Some(h) => Ok(h + [OPENCLAW_NAME])
  }

  /** `~/.openclaw/workspace`: one `workspace` component under the root directory. */
  function WorkspaceDir(home: Option<Path>): (r: Result<Path>)
    ensures OpenclawDir(home).Err? ==> r == Err(OpenclawDir(home).error)
    ensures OpenclawDir(home).Ok? ==>
      r.Ok? && OpenclawDir(home).value < r.value && |r.value| == |OpenclawDir(home).value| + 1
    ensures r.Ok? ==> r.value[|r.value| - 1] == WORKSPACE_NAME
  {
    var dir :- OpenclawDir(home);
    Ok(dir + [WORKSPACE_NAME])
  }

  /** `~/.openclaw/openclaw.json`: one `openclaw.json` component under the root directory. */
  function ConfigFilePath(home: Option<Path>): (r: Result<Path>)
    ensures OpenclawDir(home).Err? ==> r == Err(OpenclawDir(home).error)
    ensures OpenclawDir(home).Ok? ==>
      r.Ok? && OpenclawDir(home).value < r.value && |r.value| == |OpenclawDir(home).value| + 1
    ensures r.Ok? ==> r.value[|r.value| - 1] == CONFIG_NAME
  {
    var dir :- OpenclawDir(home);
    Ok(dir + [CONFIG_NAME])
  }

  /** All three locations lie under the home directory, and they are pairwise distinct. */
  lemma LocationsUnderHome(home: Path)
    ensures home < OpenclawDir(Some(home)).value
    ensures home < WorkspaceDir(Some(home)).value
    ensures home < ConfigFilePath(Some(home)).value
    ensures OpenclawDir(Some(home)).value != WorkspaceDir(Some(home)).value
    ensures OpenclawDir(Some(home)).value != ConfigFilePath(Some(home)).value
    ensures WorkspaceDir(Some(home)).value != ConfigFilePath(Some(home)).value
  {
    var w := WorkspaceDir(Some(home)).value;
    var c := ConfigFilePath(Some(home)).value;
    assert w[|w| - 1] != c[|c| - 1];
  }

  /** A path shown the way a Unix `Path::display` shows an absolute path. */
  function Display(p: Path): string {
    if p == [] then "/" else JoinComponents(p)
  }

  function JoinComponents(p: Path): string
    requires p != []
  {
    if |p| == 1 then "/" + p[0] else JoinComponents(p[..|p| - 1]) + "/" + p[|p| - 1]
  }
}

=== FILE: results.dfy ===
/** Failure-carrying values shared by every module of the model.
    `Result` stands for Rust's `Result<T, String>` (every error of the native
    side is a human-readable string); `Option` stands for Rust's `Option` and for
    TypeScript values that may be `null` or `undefined`. */
module Results {

  datatype Option<+T> = None | Some(value: T) {

    /** The carried value, or `default` when there is none (TypeScript `??`). */
    function GetOr(default: T): T {
      match this
      case Some(v) => v
      case None => default
    }
  }

  datatype Result<+T> = Ok(value: T) | Err(error: string) {

    predicate IsFailure() {
      Err?
    }

    function PropagateFailure<U>(): Result<U>
      requires Err?
    {
      Err(error)
    }

    function Extract(): T
      requires Ok?
    {
      value
    }
  }
}

=== FILE: text.dfy ===
/** The two pieces of text handling the native and web sides rely on:
    JavaScript's `String.prototype.trim` and the decimal rendering of an
    integer (`${n}` in a template literal, `{}` in a Rust `format!`). */
module Text {

  /** White space and line terminators as ECMAScript's `trim` removes them. */
  predicate IsJsWhitespace(c: char) {
    || c == '\t' || c == '\n' || c == '\U{B}' || c == '\U{C}' || c == '\r'
    || c == ' ' || c == '\U{A0}' || c == '\U{1680}'
    || ('\U{2000}' <= c <= '\U{200A}')
    || c == '\U{2028}' || c == '\U{2029}' || c == '\U{202F}' || c == '\U{205F}'
    || c == '\U{3000}' || c == '\U{FEFF}'
  }

  predicate AllWhitespace(s: string) {
    forall i :: 0 <= i < |s| ==> IsJsWhitespace(s[i])
  }

  /** Drops leading white space: the result is a suffix of `s` and what was
      dropped is all white space. */
  function TrimStart(s: string): (r: string)
    ensures |r| <= |s| && r == s[|s| - |r|..]
    ensures AllWhitespace(s[..|s| - |r|])
    ensures r == [] || !IsJsWhitespace(r[0])
  {
    if |s| > 0 && IsJsWhitespace(s[0]) then
      var r := TrimStart(s[1..]);
      var cut := |s| - |r|;
      assert AllWhitespace(s[..cut]) by {
        forall i | 0 <= i < cut ensures IsJsWhitespace(s[..cut][i]) {
          if i > 0 {
            assert s[..cut][i] == s[1..][..cut - 1][i - 1];
          }
        }
      }
      r
    else
      s
  }

  /** Drops trailing white space: the result is a prefix of `s` and what was
      dropped is all white space. */
  function TrimEnd(s: string): (r: string)
    ensures |r| <= |s| && r == s[..|r|]
    ensures AllWhitespace(s[|r|..])
    ensures r == [] || !IsJsWhitespace(r[|r| - 1])
  {
    if |s| > 0 && IsJsWhitespace(s[|s| - 1]) then
      var r := TrimEnd(s[..|s| - 1]);
      assert AllWhitespace(s[|r|..]) by {
        forall i | 0 <= i < |s| - |r| ensures IsJsWhitespace(s[|r|..][i]) {
          if |r| + i < |s| - 1 {
            assert s[|r|..][i] == s[..|s| - 1][|r|..][i];
          }
        }
      }
      r
    else
      s
  }

  /** `r` is `s` with white space cut from both ends, located at offset `lo`. */
  predicate IsTrimAt(s: string, r: string, lo: nat) {
    && lo + |r| <= |s|
    && s[lo..lo + |r|] == r
    && AllWhitespace(s[..lo])
    && AllWhitespace(s[lo + |r|..])
    && (r == [] || (!IsJsWhitespace(r[0]) && !IsJsWhitespace(r[|r| - 1])))
  }

  /** Cutting white space from the end of what remains after cutting it from
      the start cuts it from both ends. */
  lemma TrimBothEnds(s: string, a: string, r: string)
    requires |a| <= |s| && a == s[|s| - |a|..] && AllWhitespace(s[..|s| - |a|])
    requires a == [] || !IsJsWhitespace(a[0])
    requires |r| <= |a| && r == a[..|r|] && AllWhitespace(a[|r|..])
    requires r == [] || !IsJsWhitespace(r[|r| - 1])
    ensures IsTrimAt(s, r, |s| - |a|)
  {
    var lo := |s| - |a|;
    assert s[lo..lo + |r|] == a[..|r|];
    assert s[lo + |r|..] == a[|r|..];
    if r != [] {
      assert r[0] == a[0];
    }
  }

  /** JavaScript's `s.trim()`: the empty string, or text with no white space
      at either end that is no longer than the input (`TrimLocates` says where
      it sits in `s`). */
  function Trim(s: string): (r: string)
    ensures |r| <= |s|
    ensures r == [] || (!IsJsWhitespace(r[0]) && !IsJsWhitespace(r[|r| - 1]))
  {
    TrimEnd(TrimStart(s))
  }

  /** The trimmed text is `s` with white space cut from both ends. */
  lemma TrimLocates(s: string)
    ensures IsTrimAt(s, Trim(s), |s| - |TrimStart(s)|)
  {
    TrimBothEnds(s, TrimStart(s), Trim(s));
  }

  /** Trimming yields the empty string exactly for all-white-space input. */
  lemma TrimEmptyIff(s: string)
    ensures Trim(s) == [] <==> AllWhitespace(s)
  {
    var r := Trim(s);
    var lo := |s| - |TrimStart(s)|;
    TrimLocates(s);
    if r == [] {
      assert lo == |s|;
      forall i | 0 <= i < |s| ensures IsJsWhitespace(s[i]) {
        assert s[..lo][i] == s[i];
      }
    } else {
      assert s[lo] == r[0];
    }
  }

  /** Non-empty text with no white space at either end. */
  predicate IsTrimmed(s: string) {
    s != [] && !IsJsWhitespace(s[0]) && !IsJsWhitespace(s[|s| - 1])
  }

  /** Trimming leaves such text unchanged. */
  lemma TrimmedIsFixpoint(s: string)
    requires IsTrimmed(s)
    ensures Trim(s) == s
  {
    assert TrimStart(s) == s;
    assert TrimEnd(s) == s;
  }

  predicate EndsWith(s: string, suffix: string) {
    |suffix| <= |s| && s[|s| - |suffix|..] == suffix
  }

  /** A concatenation starts with its first part and ends with its second. */
  lemma ConcatParts(a: string, b: string)
    ensures a <= a + b && EndsWith(a + b, b)
  {
    assert (a + b)[|a|..] == b;
  }

  /** What a string ending in " (d)" holds just before its closing parenthesis. */
  lemma ParenthesizedSuffix(r: string, d: string)
    requires EndsWith(r, " (" + d + ")")
    ensures |r| >= |d| + 1 && r[|r| - 1 - |d|..|r| - 1] == d
  {
    var tail := " (" + d + ")";
    assert r[|r| - 1 - |d|..|r| - 1] == r[|r| - |tail|..][2..|tail| - 1];
  }

  function DigitChar(d: nat): (c: char)
    requires d < 10
    ensures '0' <= c <= '9'
  {
    "0123456789"[d]
  }

  function DigitValue(c: char): (d: nat)
    requires '0' <= c <= '9'
    ensures d < 10
  {
    (c as int - '0' as int) as nat
  }

  predicate AllDigits(s: string) {
    forall i :: 0 <= i < |s| ==> '0' <= s[i] <= '9'
  }

  /** Decimal rendering of a natural number, without leading zeros. */
  function Decimal(n: nat): (r: string)
    ensures |r| >= 1 && AllDigits(r)
    ensures r[0] == '0' ==> n == 0
  {
    if n < 10 then [DigitChar(n)] else Decimal(n / 10) + [DigitChar(n % 10)]
  }

  /** Reads back a string of decimal digits. */
  function ParseDecimal(s: string): nat
    requires AllDigits(s)
  {
    if s == [] then 0 else ParseDecimal(s[..|s| - 1]) * 10 + DigitValue(s[|s| - 1])
  }

  /** The rendering loses nothing: the number can be read back from it. */
  lemma {:induction false} DecimalRoundTrip(n: nat)
    ensures ParseDecimal(Decimal(n)) == n
  {
    if n >= 10 {
      var q, d := n / 10, n % 10;
      var s := Decimal(q) + [DigitChar(d)];
      assert s[..|s| - 1] == Decimal(q);
      assert DigitValue(DigitChar(d)) == d;
      DecimalRoundTrip(q);
      assert ParseDecimal(s) == q * 10 + d;
    } else {
      assert DigitValue(DigitChar(n)) == n;
    }
  }

  /** Decimal rendering of a signed integer, with a leading '-' when negative. */
  function IntToString(i: int): (r: string)
    ensures |r| >= 1
    ensures i < 0 <==> r[0] == '-'
    ensures i >= 0 ==> r == Decimal(i)
    ensures i < 0 ==> r[1..] == Decimal(-i)
  {
    if i < 0 then "-" + Decimal(-i) else Decimal(i)
  }
}
